=== FILE: README.md ===
# SmartSoil value mappings in Dafny

SmartSoil is a one-screen Android dashboard. It shows four live soil and air
readings: humidity, percent soil moisture, raw soil sensor value and
temperature. Its only logic is a set of pure value mappings inside the
Compose functions of `MainActivity.kt`. This project pulls those mappings out
and proves properties of them:

- **Conversions** (`conversions.dfy`): Kotlin's `toInt()` on a finite
  floating-point reading. It rounds toward zero, then saturates to the 32-bit
  `Int` range.
- **Mood** (`mood.dfy`): the mood panel. The truncated percent-soil value picks
  one of six bands (`MainIndicator`'s `when`). Each band shows a fixed face
  colour, a face `Expression` and a message (the `Emoji*Canvas` functions).
  The face canvas draws eyes and a mouth shape chosen by the expression. A
  declarative band table with first-match lookup is the independent reference
  the `when` chain is proved equal to.
- **Gauge** (`gauge.dfy`): the four gauges. Each one clamps its reading with
  `coerceIn`, normalises it to a fraction of its domain, and derives a visual
  quantity from it. The domains are raw soil 1500..4095 (bar), soil moisture
  0..100 (arc), humidity 0..100 (arc) and temperature 0..50 (needle). The
  derived quantities are the bar fill, the arc sweep `180·f` from a start of
  -180°, the needle angle `-90 + 180·f`, and the percentage label
  `(f·100).toInt()`.
- **Dashboard** (`dashboard.dfy`): the settled screen as a pure function of the
  four readings. It also holds the truncation-at-the-band-edges result and
  the scenario lemmas.

Arithmetic uses exact `real`s. The source computes in `Float`/`Double`, so
this is an idealisation.

Two points where the model follows the code rather than what might be assumed:

- The code divides by `max - min` with no guard for a degenerate domain. All
  four domains are constants with `min < max`, so `Gauge.Fraction` requires
  `d.Valid()` (that is, `min < max`) and adds no fallback.
- The comment at `MainActivity.kt:460` says the needle maps 0–50 to -180°..0°.
  The code computes -90°..90°, and the model follows the code.

## Model

| member | source | states |
|---|---|---|
| Conversions.TruncateTowardZero | app/src/main/java/com/example/projects/MainActivity.kt:172 | The integer part keeps the reading's sign and lies within one unit of it, on the side of zero |
| Conversions.ToInt | app/src/main/java/com/example/projects/MainActivity.kt:172-176 | `toInt()` yields a 32-bit Int and never moves away from zero. Inside the Int range it drops less than one unit; beyond it, it sticks to the nearer bound |
| Conversions.ToIntOfWhole | app/src/main/java/com/example/projects/MainActivity.kt:172 | A whole reading inside the Int range converts to itself |
| Mood.Classify | app/src/main/java/com/example/projects/MainActivity.kt:194-200 | Error band iff the value is outside 0..100; any other band's table row contains the value |
| Mood.FirstMatch | app/src/main/java/com/example/projects/MainActivity.kt:194-199 | Ranges are tried in order and the first one that matches wins: the returned row covers the value and no earlier row does; `|rows|` means no row matched |
| Mood.Lookup | app/src/main/java/com/example/projects/MainActivity.kt:194-200 | Table lookup returns the first covering row's band, or the error band when no row covers the value |
| Mood.TableIsContiguous | app/src/main/java/com/example/projects/MainActivity.kt:195-199 | The five ranges run from 0 to 100, each is non-empty, and each starts one past the previous one's end |
| Mood.TableRowsDisjoint | app/src/main/java/com/example/projects/MainActivity.kt:195-199 | No value lies in two ranges |
| Mood.TableCoversExactlyPercentRange | app/src/main/java/com/example/projects/MainActivity.kt:194-200 | Some range contains a value iff the value is in 0..100 |
| Mood.ClassifyAgreesWithTable | app/src/main/java/com/example/projects/MainActivity.kt:194-200 | The `when` chain and the first-match table lookup pick the same band for every integer |
| Mood.ClassifyIffInRow | app/src/main/java/com/example/projects/MainActivity.kt:194-200 | A value reaches a band iff it lies in that band's range, in both directions |
| Mood.MoodOf | app/src/main/java/com/example/projects/MainActivity.kt:602-706 | Each band's panel face: the X-mark expression appears iff the band is the error band, and the face is red iff it is the error band (colours and expressions of lines 602, 622, 643, 664, 685, 706). Partners: OnlyErrorUsesXMark, ExpressionMonotone |
| Mood.Message | app/src/main/java/com/example/projects/MainActivity.kt:606-710 | Each band's panel text: it is non-empty, and it begins with "ERROR" iff the band is the error band; every other message starts with a letter other than E. Partner: MessagesDistinct |
| Mood.DrawsEyes | app/src/main/java/com/example/projects/MainActivity.kt:572-575 | The eyes are drawn iff the mouth is not the crossed strokes, so a face shows exactly one of the two. Partner: FaceShowsError |
| Mood.Mouth | app/src/main/java/com/example/projects/MainActivity.kt:576-588 | The mouth is the crossed strokes iff the expression is the X-mark; the other three expressions each have their own curve or line. Partner: FaceShowsError |
| Mood.OnlyErrorUsesXMark | app/src/main/java/com/example/projects/MainActivity.kt:595-716 | Of the six panels, only the error panel has the X-mark face, and only it is red |
| Mood.MessagesDistinct | app/src/main/java/com/example/projects/MainActivity.kt:605-714 | The six panel messages are pairwise different |
| Mood.ExpressionMonotone | app/src/main/java/com/example/projects/MainActivity.kt:194-199 | Over 0..100 the face is never the X-mark, and it never gets sadder as the value rises (with the faces of lines 602-685) |
| Mood.FaceShowsError | app/src/main/java/com/example/projects/MainActivity.kt:573-588 | The eyes are missing, and the mouth is the crossed strokes, exactly when the classified value is outside 0..100 |
| Gauge.GaugeDomainsValid | app/src/main/java/com/example/projects/MainActivity.kt:267-268 | All four gauge domains have min < max, so the division never meets a zero width (the domains are declared at lines 267-268, 328-329, 388-389 and 450-451) |
| Gauge.CoerceIn | app/src/main/java/com/example/projects/MainActivity.kt:269 | The clamped value lies in [lo, hi], equals the input when the input is already inside, and is the nearest point of the range |
| Gauge.CoerceInReal | app/src/main/java/com/example/projects/MainActivity.kt:270 | The float clamp lies in [lo, hi], leaves values inside unchanged, gives lo below the range and hi above it |
| Gauge.Fraction | app/src/main/java/com/example/projects/MainActivity.kt:328-332 | The fraction lies in [0,1]; it is 0 for any input ≤ min and 1 for any input ≥ max |
| Gauge.FractionRoundTrip | app/src/main/java/com/example/projects/MainActivity.kt:331-332 | Mapping the fraction back onto the domain gives exactly the clamped reading |
| Gauge.FractionMonotone | app/src/main/java/com/example/projects/MainActivity.kt:388-392 | The fraction never decreases as the reading grows |
| Gauge.FractionStrictInDomain | app/src/main/java/com/example/projects/MainActivity.kt:453-454 | Inside the domain a larger reading gives a strictly larger fraction |
| Gauge.FractionEnds | app/src/main/java/com/example/projects/MainActivity.kt:269-270 | The fraction is 0 iff the input is ≤ min, and 1 iff it is ≥ max |
| Gauge.Sweep | app/src/main/java/com/example/projects/MainActivity.kt:371 | The arc sweep lies in [0,180], so an arc starting at -180° never passes 0°, and it is the fraction of a half turn (sweep / 180 = fraction) |
| Gauge.NeedleAngle | app/src/main/java/com/example/projects/MainActivity.kt:461 | The needle angle lies in [-90, 90], and its turn from the leftmost position is the fraction of a half turn ((angle + 90) / 180 = fraction) |
| Gauge.Label | app/src/main/java/com/example/projects/MainActivity.kt:301 | The percentage label is the whole percent in the fraction (label ≤ 100·fraction < label + 1), so it is in 0..100 and is 100 exactly for a full fraction |
| Gauge.TargetFraction | app/src/main/java/com/example/projects/MainActivity.kt:270 | The bar's second clamp to [0,1] never changes the fraction |
| Gauge.Render | app/src/main/java/com/example/projects/MainActivity.kt:266-305 | Bar fill is in [0,1]. Arcs start at -180° and sweep [0,180]. The needle's background arc is the full half-turn and its angle is in [-90,90]. Labels are in 0..100, and a label is 100 iff the reading is ≥ the domain maximum. Covers the bar (266-305), the arcs (360-377, 422-439) and the needle (461, 483-489) |
| Gauge.RenderRoundTrip | app/src/main/java/com/example/projects/MainActivity.kt:297-301 | Bar fill, arc sweep / 180 and (needle angle + 90) / 180 each map back onto the domain to exactly the clamped reading, so the picture is pinned for every reading, not just at the ends. The bar and arc labels are the whole percent of the reading's fraction (label ≤ 100·fraction < label + 1; lines 301, 377, 439). Covers fill = fraction (297), sweep = 180·fraction (371, 433) and angle = -90 + 180·fraction (461) |
| Gauge.ArcEnds | app/src/main/java/com/example/projects/MainActivity.kt:360-374 | The arc is empty iff the reading is ≤ min, and full iff it is ≥ max |
| Gauge.NeedleEnds | app/src/main/java/com/example/projects/MainActivity.kt:453-461 | The needle is at -90° iff the reading is ≤ min, at 90° iff it is ≥ max, and at 0° iff the reading is the domain midpoint |
| Gauge.RenderMonotone | app/src/main/java/com/example/projects/MainActivity.kt:327-377 | Bar fill, arc sweep, labels and needle angle never decrease as the reading grows |
| Gauge.LabelMonotone | app/src/main/java/com/example/projects/MainActivity.kt:377 | A larger fraction never gets a smaller label |
| Gauge.PercentLabelIsClampedReading | app/src/main/java/com/example/projects/MainActivity.kt:386-443 | On a 0..100 arc gauge the label is exactly the clamped integer reading |
| Dashboard.Show | app/src/main/java/com/example/projects/MainActivity.kt:163-177 | The mood depends on the truncated percent-soil reading alone. Each gauge has its own style. A gauge reads 100% iff its reading is at least its domain maximum. The temperature needle points fully right iff the temperature is ≥ 50, and fully left iff it is < 1 (truncation sends every reading below 1 to 0 or below) |
| Dashboard.ErrorBandIff | app/src/main/java/com/example/projects/MainActivity.kt:172-200 | A reading reaches the error band iff it is ≤ -1 or ≥ 101, because truncation pulls (-1,0) up to 0 and [100,101) down to 100 |
| Dashboard.TruncationExamples | app/src/main/java/com/example/projects/MainActivity.kt:172 | -0.5 shows the driest band and 100.7 the wettest |
| Dashboard.MoodMatchesSoilGauge | app/src/main/java/com/example/projects/MainActivity.kt:172-174 | Outside the error band, the soil-moisture arc's label classifies to the same band as the mood panel; in the error band the arc reads 0% or 100% |
| Dashboard.NeutralScenario | app/src/main/java/com/example/projects/MainActivity.kt:197 | percentSoil = 45 shows the yellow neutral face and a 45% arc |
| Dashboard.RawSoilScenarios | app/src/main/java/com/example/projects/MainActivity.kt:267-301 | rawSoil = 5000 gives a full bar labelled 100%; rawSoil = 1500 gives an empty bar labelled 0% |
| Dashboard.TemperatureScenario | app/src/main/java/com/example/projects/MainActivity.kt:453-461 | temperature = 25 puts the needle at exactly 0° |
| Dashboard.NegativeReadingScenario | app/src/main/java/com/example/projects/MainActivity.kt:200 | percentSoil = -10 gives the red X-mark error face whatever the other readings are |

## Left out

- Firebase subscription (`MainViewModel`, lines 70-123), including the `null → 0.0` default. It is a foreign SDK driven by asynchronous callbacks. The model takes the four latest readings as its input.
- The `animateFloatAsState`/`tween(600)` transitions. They are time-driven framework animation. The model gives the settled target fraction only, so the label and angle are those of the target and not of a value in flight.
- Activity, layout, theming, text styles and `@Preview`. These are UI plumbing with no value logic.
- `FaceCanvas` pixel geometry, Bézier control points and `dp.toPx()`. Only the expression-dependent parts are modelled: whether the eyes are drawn and which mouth shape is used.
- `Float`/`Double` rounding. The model uses exact reals. A label such as `(f * 100).toInt()` could differ by one from the real-number value where float rounding lands just below a whole number.
- NaN and infinite readings. Reals have none. In Kotlin, `NaN.toInt()` is 0, which would show the driest band, and the infinities saturate like other out-of-range values.
- Gauge.PercentLabelIsClampedReading: holds for exact reals only. The source computes the label in single-precision `Float` (lines 332, 377, 392 and 439). There a reading of 53 gives 0.52999997f·100 = 52.999996f, which shows "52%", and a reading of 59 shows "58%". This affects both the soil-moisture arc and the humidity arc. Dashboard.MoodMatchesSoilGauge still holds for these two readings in `Float`, because 52 and 58 stay inside the 51..75 band of 53 and 59.

=== FILE: conversions.dfy ===
/**
 Kotlin's conversion of a floating-point reading to `Int` (`Double.toInt()` and
 `Float.toInt()`), on finite values: the value is rounded toward zero and then
 saturated to the 32-bit signed range. Readings are modelled as exact `real`s,
 so NaN and the infinities do not arise.
 */
module Conversions {

  /** Bounds of Kotlin's 32-bit `Int`. */
  const IntMin: int := -0x8000_0000
  const IntMax: int := 0x7FFF_FFFF

  predicate InIntRange(n: int) {
    IntMin <= n <= IntMax
  }

  /** Rounding toward zero: the integer part of `x`, keeping its sign. */
  function TruncateTowardZero(x: real): (n: int)
    ensures 0.0 <= x ==> 0 <= n && n as real <= x < n as real + 1.0
    ensures x <= 0.0 ==> n <= 0 && n as real - 1.0 < x <= n as real
  {
    if x >= 0.0 then x.Floor else -((-x).Floor)
  }

  /** `toInt()` on a finite floating-point value. */
  function ToInt(x: real): (n: int)
    ensures InIntRange(n)
    // never moves away from zero
    ensures 0.0 <= x ==> 0 <= n && n as real <= x
    ensures x <= 0.0 ==> n <= 0 && x <= n as real
    // inside the representable range it drops less than one unit
    ensures IntMin as real - 1.0 < x < IntMax as real + 1.0 ==>
              x - n as real < 1.0 && n as real - x < 1.0
    // outside it, it sticks to the nearer bound
    ensures x >= IntMax as real ==> n == IntMax
    ensures x <= IntMin as real ==> n == IntMin
  {
    var t := TruncateTowardZero(x);
    if t > IntMax then IntMax else if t < IntMin then IntMin else t
  }

  /** A whole number inside the `Int` range converts to itself. */
  lemma ToIntOfWhole(k: int)
    requires InIntRange(k)
    ensures ToInt(k as real) == k
  {
  }
}

=== FILE: dashboard.dfy ===
/**
 The dashboard screen as a pure function of the four latest readings. Each
 reading is converted to `Int` by `toInt()` before it reaches an indicator;
 the percent-soil reading feeds both the mood panel and the soil-moisture arc.
 */
module Dashboard {
  import Conversions
  import Mood
  import Gauge

  /** The four sensor values last pushed by the data store. */
  datatype Readings = Readings(humidity: real, percentSoil: real, rawSoil: real, temperature: real)

  /** What the screen shows once every animation has settled. */
  datatype Screen = Screen(
    mood: Mood.Band,
    rawSoil: Gauge.Visual,
    soilMoisture: Gauge.Visual,
    humidity: Gauge.Visual,
    temperature: Gauge.Visual
  )

  function Show(r: Readings): (s: Screen)
    // the mood depends on the percent-soil reading alone
    ensures s.mood == Mood.Classify(Conversions.ToInt(r.percentSoil))
    ensures s.rawSoil.BarView? && s.soilMoisture.ArcView? && s.humidity.ArcView? && s.temperature.NeedleView?
    // a full bar or arc means the reading reached its domain maximum
    ensures s.rawSoil.percent == 100 <==> r.rawSoil >= 4095.0
    ensures s.soilMoisture.percent == 100 <==> r.percentSoil >= 100.0
    ensures s.humidity.percent == 100 <==> r.humidity >= 100.0
    // the needle follows the temperature reading to both ends of its dial
    ensures s.temperature.angle == 90.0 <==> r.temperature >= 50.0
    ensures s.temperature.angle == -90.0 <==> r.temperature < 1.0
  {
    Gauge.GaugeDomainsValid();
    var percentSoil := Conversions.ToInt(r.percentSoil);
    Gauge.NeedleEnds(Gauge.TemperatureGauge, Conversions.ToInt(r.temperature));
    Screen(
      Mood.Classify(percentSoil),
      Gauge.Render(Gauge.RawSoilGauge, Conversions.ToInt(r.rawSoil)),
      Gauge.Render(Gauge.SoilMoistureGauge, percentSoil),
      Gauge.Render(Gauge.HumidityGauge, Conversions.ToInt(r.humidity)),
      Gauge.Render(Gauge.TemperatureGauge, Conversions.ToInt(r.temperature))
    )
  }

  /** A reading reaches the error band only when it is at least a whole
      unit outside 0..100: truncation toward zero pulls (-1, 0) up to 0 and
      [100, 101) down to 100. */
  lemma ErrorBandIff(x: real)
    ensures Mood.Classify(Conversions.ToInt(x)) == Mood.Error <==> x <= -1.0 || x >= 101.0
  {
  }

  /** A reading just below zero still shows the driest band, and one just
      above 100 the wettest. */
  lemma TruncationExamples()
    ensures Mood.Classify(Conversions.ToInt(-0.5)) == Mood.VeryDryDark
    ensures Mood.Classify(Conversions.ToInt(100.7)) == Mood.HappyPlant
  {
  }

  /** The mood panel and the soil-moisture arc agree: outside the error band
      the arc's percentage falls in the mood's own band; in the error band
      the arc is pinned at an end. */
  lemma MoodMatchesSoilGauge(r: Readings)
    ensures Show(r).mood != Mood.Error ==> Mood.Classify(Show(r).soilMoisture.percent) == Show(r).mood
    ensures Show(r).mood == Mood.Error ==>
              Show(r).soilMoisture.percent == 0 || Show(r).soilMoisture.percent == 100
  {
    Gauge.PercentLabelIsClampedReading(Gauge.SoilMoistureGauge, Conversions.ToInt(r.percentSoil));
  }

  /** Pushing percentSoil = 45 shows the neutral yellow face. */
  lemma NeutralScenario(r: Readings)
    requires r.percentSoil == 45.0
    ensures Show(r).mood == Mood.NeutralYellow
    ensures Mood.MoodOf(Show(r).mood) == Mood.Mood(0xFFFF_D700, Mood.Neutral)
    ensures Show(r).soilMoisture.percent == 45
  {
  }

  /** Pushing rawSoil = 5000 fills the bar and labels it 100%; pushing 1500
      leaves it empty at 0%. */
  lemma RawSoilScenarios(r: Readings)
    ensures r.rawSoil == 5000.0 ==> Show(r).rawSoil.fill == 1.0 && Show(r).rawSoil.percent == 100
    ensures r.rawSoil == 1500.0 ==> Show(r).rawSoil.fill == 0.0 && Show(r).rawSoil.percent == 0
  {
  }

  /** Pushing temperature = 25 puts the needle straight up. */
  lemma TemperatureScenario(r: Readings)
    requires r.temperature == 25.0
    ensures Show(r).temperature.angle == 0.0
  {
  }

  /** Pushing percentSoil = -10 shows the error face whatever the other
      readings are. */
  lemma NegativeReadingScenario(r: Readings)
    requires r.percentSoil == -10.0
    ensures Show(r).mood == Mood.Error
    ensures Mood.MoodOf(Show(r).mood) == Mood.Mood(Mood.Red, Mood.XMark)
  {
  }
}

=== FILE: gauge.dfy ===
/**
 The four gauges of the SmartSoil dashboard. Each clamps its integer reading
 into a fixed domain, normalises it to a fraction of that domain, and derives
 a visual quantity from the fraction: the fill of a bar, the sweep of an arc,
 or the angle of a needle, plus a whole-percent label.

 Arithmetic is exact (`real`); the source computes in `Float`. Only the
 settled target fraction is modelled, not the animated value in flight.
 */
module Gauge {
  import Conversions

  /** An inclusive domain `[min, max]` of raw readings. */
  datatype Domain = Domain(min: int, max: int) {
    /** Every domain the gauges use is non-degenerate; the source divides
        by `max - min` without a guard. */
    predicate Valid() {
      min < max
    }
  }

  const RawSoilDomain: Domain := Domain(1500, 4095)
  const SoilMoistureDomain: Domain := Domain(0, 100)
  const HumidityDomain: Domain := Domain(0, 100)
  const TemperatureDomain: Domain := Domain(0, 50)

  datatype Style = Bar | Arc | Needle

  datatype Spec = Spec(title: string, domain: Domain, style: Style)

  const RawSoilGauge: Spec := Spec("Raw Soil Indicator", RawSoilDomain, Bar)
  const SoilMoistureGauge: Spec := Spec("Soil Moisture", SoilMoistureDomain, Arc)
  const HumidityGauge: Spec := Spec("Moisture", HumidityDomain, Arc)
  const TemperatureGauge: Spec := Spec("Temperature", TemperatureDomain, Needle)

  lemma GaugeDomainsValid()
    ensures RawSoilGauge.domain.Valid() && SoilMoistureGauge.domain.Valid()
    ensures HumidityGauge.domain.Valid() && TemperatureGauge.domain.Valid()
  {
  }

  // ---------------------------------------------------------------------
  // Clamping and normalisation.
  // ---------------------------------------------------------------------

  /** Kotlin's `coerceIn` on integers, which demands `lo <= hi`. */
  function CoerceIn(v: int, lo: int, hi: int): (r: int)
    requires lo <= hi
    ensures lo <= r <= hi
    ensures lo <= v <= hi ==> r == v
    // the nearest point of the range: no point of it is closer to v
    ensures forall p :: lo <= p <= hi ==> Dist(v, r) <= Dist(v, p)
  {
    if v < lo then lo else if v > hi then hi else v
  }

  function Dist(a: int, b: int): nat {
    if a < b then b - a else a - b
  }

  /** Kotlin's `coerceIn` on floating-point values. */
  function CoerceInReal(x: real, lo: real, hi: real): (r: real)
    requires lo <= hi
    ensures lo <= r <= hi
    ensures lo <= x <= hi ==> r == x
    ensures x < lo ==> r == lo
    ensures x > hi ==> r == hi
  {
    if x < lo then lo else if x > hi then hi else x
  }

  /** Position of the clamped reading within the domain, as a fraction. */
  function Fraction(d: Domain, v: int): (f: real)
    requires d.Valid()
    ensures 0.0 <= f <= 1.0
    ensures v <= d.min ==> f == 0.0
    ensures v >= d.max ==> f == 1.0
  {
    (CoerceIn(v, d.min, d.max) - d.min) as real / (d.max - d.min) as real
  }

  /** The point of the domain a fraction stands for. */
  function Denormalize(d: Domain, f: real): (x: real)
    requires d.Valid()
    requires 0.0 <= f <= 1.0
    ensures d.min as real <= x <= d.max as real
  {
    d.min as real + f * (d.max - d.min) as real
  }

  /** Normalising and mapping back recovers the clamped reading. */
  lemma FractionRoundTrip(d: Domain, v: int)
    requires d.Valid()
    ensures Denormalize(d, Fraction(d, v)) == CoerceIn(v, d.min, d.max) as real
  {
  }

  /** A larger reading never yields a smaller fraction. */
  lemma FractionMonotone(d: Domain, a: int, b: int)
    requires d.Valid()
    requires a <= b
    ensures Fraction(d, a) <= Fraction(d, b)
  {
    var ca := CoerceIn(a, d.min, d.max);
    var cb := CoerceIn(b, d.min, d.max);
    assert ca <= cb;
    DivMonotone((ca - d.min) as real, (cb - d.min) as real, (d.max - d.min) as real);
  }

  /** Inside the domain distinct readings get distinct fractions. */
  lemma FractionStrictInDomain(d: Domain, a: int, b: int)
    requires d.Valid()
    requires d.min <= a < b <= d.max
    ensures Fraction(d, a) < Fraction(d, b)
  {
    FractionRoundTrip(d, a);
    FractionRoundTrip(d, b);
    FractionMonotone(d, a, b);
  }

  lemma DivMonotone(x: real, y: real, w: real)
    requires x <= y
    requires w > 0.0
    ensures x / w <= y / w
  {
  }

  /** The fraction reaches its ends exactly at (and beyond) the domain ends. */
  lemma FractionEnds(d: Domain, v: int)
    requires d.Valid()
    ensures Fraction(d, v) == 0.0 <==> v <= d.min
    ensures Fraction(d, v) == 1.0 <==> v >= d.max
  {
  }

  // ---------------------------------------------------------------------
  // Visual quantities.
  // ---------------------------------------------------------------------

  /** Both arcs start at the left end of the semicircle. */
  const ArcStart: real := -180.0
  const HalfTurn: real := 180.0

  /** Foreground sweep of an arc gauge. */
  function Sweep(f: real): (s: real)
    requires 0.0 <= f <= 1.0
    ensures 0.0 <= s <= HalfTurn
    ensures ArcStart + s <= 0.0
    // the sweep is the fraction of a half turn
    ensures s / HalfTurn == f
  {
    HalfTurn * f
  }

  /** Rotation of the temperature needle about its pivot; 0 points up. */
  function NeedleAngle(f: real): (a: real)
    requires 0.0 <= f <= 1.0
    ensures -90.0 <= a <= 90.0
    // the angle turned from the leftmost position is the fraction of a half turn
    ensures (a + 90.0) / HalfTurn == f
  {
    -90.0 + HalfTurn * f
  }

  /** The percentage text: `(fraction * 100).toInt()`. */
  function Label(f: real): (n: int)
    requires 0.0 <= f <= 1.0
    ensures 0 <= n <= 100
    ensures n == 100 <==> f == 1.0
    // the whole percent contained in the fraction
    ensures n as real <= 100.0 * f < n as real + 1.0
  {
    Conversions.ToInt(f * 100.0)
  }

  /** What a gauge shows once its animation has settled. */
  datatype Visual =
    | BarView(fill: real, percent: int)
    | ArcView(start: real, sweep: real, percent: int)
    | NeedleView(arcStart: real, arcSweep: real, angle: real)

  /** Target fraction of a gauge. The bar gauge clamps the fraction into
      [0, 1] once more before use; the other gauges use it directly. */
  function TargetFraction(g: Spec, v: int): (f: real)
    requires g.domain.Valid()
    ensures f == Fraction(g.domain, v)
  {
    var f := Fraction(g.domain, v);
    if g.style == Bar then CoerceInReal(f, 0.0, 1.0) else f
  }

  /** The settled picture of a gauge for an integer reading. */
  function Render(g: Spec, v: int): (out: Visual)
    requires g.domain.Valid()
    ensures g.style == Bar ==> out.BarView? && 0.0 <= out.fill <= 1.0
    ensures g.style == Arc ==> out.ArcView? && out.start == ArcStart && 0.0 <= out.sweep <= HalfTurn
    ensures g.style == Needle ==>
              out.NeedleView? && out.arcStart == ArcStart && out.arcSweep == HalfTurn
              && -90.0 <= out.angle <= 90.0
    ensures !out.NeedleView? ==> 0 <= out.percent <= 100
    ensures !out.NeedleView? ==> (out.percent == 100 <==> v >= g.domain.max)
  {
    var f := TargetFraction(g, v);
    FractionEnds(g.domain, v);
    match g.style
    case Bar => BarView(f, Label(f))
    case Arc => ArcView(ArcStart, Sweep(f), Label(f))
    case Needle => NeedleView(ArcStart, HalfTurn, NeedleAngle(f))
  }

  /** Bar fill, arc sweep and needle angle each map back onto the domain to
      the clamped reading, and the label is the whole percent of the
      fraction: the picture stands for exactly that reading. */
  lemma RenderRoundTrip(g: Spec, v: int)
    requires g.domain.Valid()
    ensures Render(g, v).BarView? ==>
              Denormalize(g.domain, Render(g, v).fill) == CoerceIn(v, g.domain.min, g.domain.max) as real
    ensures Render(g, v).ArcView? ==>
              Denormalize(g.domain, Render(g, v).sweep / HalfTurn) == CoerceIn(v, g.domain.min, g.domain.max) as real
    ensures Render(g, v).NeedleView? ==>
              Denormalize(g.domain, (Render(g, v).angle + 90.0) / HalfTurn) == CoerceIn(v, g.domain.min, g.domain.max) as real
    // the label is the whole percent of the reading's fraction
    ensures !Render(g, v).NeedleView? ==>
              Render(g, v).percent as real <= 100.0 * Fraction(g.domain, v) < Render(g, v).percent as real + 1.0
  {
  }

  /** Arc sweep is empty exactly at or below the domain minimum and full
      exactly at or above its maximum. */
  lemma ArcEnds(g: Spec, v: int)
    requires g.domain.Valid() && g.style == Arc
    ensures Render(g, v).sweep == 0.0 <==> v <= g.domain.min
    ensures Render(g, v).sweep == HalfTurn <==> v >= g.domain.max
  {
  }

  /** The needle points left at or below the minimum, right at or above the
      maximum, and straight up exactly at the domain midpoint. */
  lemma NeedleEnds(g: Spec, v: int)
    requires g.domain.Valid() && g.style == Needle
    ensures Render(g, v).angle == -90.0 <==> v <= g.domain.min
    ensures Render(g, v).angle == 90.0 <==> v >= g.domain.max
    ensures Render(g, v).angle == 0.0 <==> 2 * v == g.domain.min + g.domain.max
  {
  }

  /** Arc and bar gauges move monotonically with the reading. */
  lemma RenderMonotone(g: Spec, a: int, b: int)
    requires g.domain.Valid()
    requires a <= b
    ensures g.style == Bar ==> Render(g, a).fill <= Render(g, b).fill && Render(g, a).percent <= Render(g, b).percent
    ensures g.style == Arc ==> Render(g, a).sweep <= Render(g, b).sweep && Render(g, a).percent <= Render(g, b).percent
    ensures g.style == Needle ==> Render(g, a).angle <= Render(g, b).angle
  {
    FractionMonotone(g.domain, a, b);
    LabelMonotone(Fraction(g.domain, a), Fraction(g.domain, b));
  }

  lemma LabelMonotone(f1: real, f2: real)
    requires 0.0 <= f1 <= f2 <= 1.0
    ensures Label(f1) <= Label(f2)
  {
  }

  /** On a 0..100 gauge the label is the clamped reading itself. */
  lemma PercentLabelIsClampedReading(g: Spec, v: int)
    requires g.domain == Domain(0, 100)
    requires g.style == Arc
    ensures Render(g, v).percent == CoerceIn(v, 0, 100)
  {
  }
}

=== FILE: mood.dfy ===
/**
 The mood indicator of the SmartSoil dashboard: the truncated percent-soil
 reading selects one of six bands, and each band shows a face (colour and
 expression) next to a fixed message.
 */
module Mood {

  /** The face expressions the face canvas knows how to draw. */
  datatype Expression = Happy | Neutral | Sad | XMark

  /** A 32-bit ARGB colour word. */
  type Argb = c: nat | c < 0x1_0000_0000

  datatype Mood = Mood(faceColor: Argb, expression: Expression)

  /** The six bands, one per emoji panel; `Error` is the fallback panel. */
  datatype Band =
    | VeryDryDark
    | VeryDryOrange
    | NeutralYellow
    | MoistLightGreen
    | HappyPlant
    | Error

  /** The band selection as the indicator writes it: a chain of integer
      ranges tried in ascending order, anything else falling to `Error`. */
  function Classify(value: int): (b: Band)
    ensures b == Error <==> value < 0 || value > 100
    ensures b != Error ==> exists i :: 0 <= i < |Table| && Table[i].band == b && Covers(Table[i], value)
  {
    if 0 <= value <= 20 then
      assert Covers(Table[0], value); VeryDryDark
    else if 21 <= value <= 35 then
      assert Covers(Table[1], value); VeryDryOrange
    else if 36 <= value <= 50 then
      assert Covers(Table[2], value); NeutralYellow
    else if 51 <= value <= 75 then
      assert Covers(Table[3], value); MoistLightGreen
    else if 76 <= value <= 100 then
      assert Covers(Table[4], value); HappyPlant
    else Error
  }

  // ---------------------------------------------------------------------
  // The band table: an independent, declarative description of the same
  // classification, as a list of inclusive ranges with first-match lookup.
  // ---------------------------------------------------------------------

  datatype Row = Row(lo: int, hi: int, band: Band)

  const Table: seq<Row> := [
    Row(0, 20, VeryDryDark),
    Row(21, 35, VeryDryOrange),
    Row(36, 50, NeutralYellow),
    Row(51, 75, MoistLightGreen),
    Row(76, 100, HappyPlant)
  ]

  predicate Covers(row: Row, value: int) {
    row.lo <= value <= row.hi
  }

  /** Index of the first row covering `value`, or `|rows|` when none does. */
  function FirstMatch(rows: seq<Row>, value: int): (i: nat)
    ensures i <= |rows|
    ensures i < |rows| ==> Covers(rows[i], value)
    ensures forall j :: 0 <= j < i ==> !Covers(rows[j], value)
  {
    if |rows| == 0 then 0
    else if Covers(rows[0], value) then 0
    else 1 + FirstMatch(rows[1..], value)
  }

  /** First-match table lookup with the error band as the fallback. */
  function Lookup(rows: seq<Row>, value: int): (b: Band)
    ensures (exists j :: 0 <= j < |rows| && Covers(rows[j], value)) ==>
              b == rows[FirstMatch(rows, value)].band
    ensures (forall j :: 0 <= j < |rows| ==> !Covers(rows[j], value)) ==> b == Error
  {
    var i := FirstMatch(rows, value);
    if i < |rows| then rows[i].band else Error
  }

  /** The rows are ascending, adjacent and non-overlapping, starting at 0
      and ending at 100. */
  lemma TableIsContiguous()
    ensures Table[0].lo == 0 && Table[|Table| - 1].hi == 100
    ensures forall i :: 0 <= i < |Table| ==> Table[i].lo <= Table[i].hi
    ensures forall i :: 0 <= i < |Table| - 1 ==> Table[i].hi + 1 == Table[i + 1].lo
  {
  }

  /** Rows never overlap: a value is covered by at most one row. */
  lemma TableRowsDisjoint(i: int, j: int, value: int)
    requires 0 <= i < j < |Table|
    requires Covers(Table[i], value)
    ensures !Covers(Table[j], value)
  {
  }

  /** The table covers exactly 0..100: a value lies in some row iff it is
      between 0 and 100. */
  lemma TableCoversExactlyPercentRange(value: int)
    ensures (exists i :: 0 <= i < |Table| && Covers(Table[i], value)) <==> 0 <= value <= 100
  {
    if 0 <= value <= 100 {
      var b := Classify(value);
    }
  }

  /** The `when` chain and the table lookup select the same band for every
      integer. */
  lemma ClassifyAgreesWithTable(value: int)
    ensures Classify(value) == Lookup(Table, value)
  {
  }

  /** Each band sits in one row, so its table range pins the values that
      reach it: `Classify(v) == b` iff `v` lies in `b`'s row. */
  lemma ClassifyIffInRow(value: int, i: int)
    requires 0 <= i < |Table|
    ensures Classify(value) == Table[i].band <==> Covers(Table[i], value)
  {
  }

  // ---------------------------------------------------------------------
  // What each band shows.
  // ---------------------------------------------------------------------

  const Red: Argb := 0xFFFF_0000

  /** Face colour and expression of each band's emoji panel. */
  function MoodOf(b: Band): (m: Mood)
    ensures m.expression == XMark <==> b == Error
    ensures m.faceColor == Red <==> b == Error
  {
    match b
    case VeryDryDark => Mood(0xFF4E_1F00, Sad)
    case VeryDryOrange => Mood(0xFFFF_8000, Sad)
    case NeutralYellow => Mood(0xFFFF_D700, Neutral)
    case MoistLightGreen => Mood(0xFF85_BB65, Happy)
    case HappyPlant => Mood(0xFF00_7F5C, Happy)
    case Error => Mood(Red, XMark)
  }

  /** The message printed next to each band's face. */
  function Message(b: Band): (msg: string)
    // only the error panel announces itself as an error: every other
    // message starts with another letter
    ensures |msg| > 0 && (b != Error ==> msg[0] != 'E')
    ensures b == Error <==> "ERROR" <= msg
  {
    match b
    case VeryDryDark => "Gersang Wak, tambahin air!!!"
    case VeryDryOrange => "Tanah Kering, Tambahkan Air"
    case NeutralYellow => "Tanah Mulai Kering, Tambahkan Air!"
    case MoistLightGreen => "Tanah Cukup Lembab, " + "Pantau Beberapa Saat Lagi"
    case HappyPlant => "Kelembapan Tanah Baik!"
    case Error => "ERROR, DATA TERPUTUS!.  Coba Sambungkan Ulang"
  }

  /** The X-mark face belongs to the error band and to no other band, and
      the error band alone is red. */
  lemma OnlyErrorUsesXMark(b: Band)
    ensures MoodOf(b).expression == XMark <==> b == Error
    ensures MoodOf(b).faceColor == Red <==> b == Error
  {
  }

  /** Every panel has its own message, so the message identifies the band. */
  lemma MessagesDistinct(b1: Band, b2: Band)
    requires b1 != b2
    ensures Message(b1) != Message(b2)
  {
  }

  /** Expressions ordered from worst to best; the X-mark is outside the scale. */
  function Rank(e: Expression): nat
    requires e != XMark
  {
    match e
    case Sad => 0
    case Neutral => 1
    case Happy => 2
  }

  /** Within 0..100 the face never gets sadder as the moisture rises. */
  lemma ExpressionMonotone(a: int, b: int)
    requires 0 <= a <= b <= 100
    ensures MoodOf(Classify(a)).expression != XMark
    ensures MoodOf(Classify(b)).expression != XMark
    ensures Rank(MoodOf(Classify(a)).expression) <= Rank(MoodOf(Classify(b)).expression)
  {
  }

  // ---------------------------------------------------------------------
  // Face canvas: which parts of the face are drawn for an expression.
  // ---------------------------------------------------------------------

  datatype MouthShape = UpwardCurve | StraightLine | DownwardCurve | CrossedStrokes

  /** Eyes are drawn for every expression except the X-mark. */
  function DrawsEyes(e: Expression): (eyes: bool)
    // eyes and the crossed mouth never appear together, and one always does
    ensures eyes <==> Mouth(e) != CrossedStrokes
  {
    e != XMark
  }

  function Mouth(e: Expression): (m: MouthShape)
    ensures m == CrossedStrokes <==> e == XMark
  {
    match e
    case Happy => UpwardCurve
    case Neutral => StraightLine
    case Sad => DownwardCurve
    case XMark => CrossedStrokes
  }

  /** A face with eyes is shown exactly for the in-range readings, and the
      crossed mouth exactly for the out-of-range ones. */
  lemma FaceShowsError(value: int)
    ensures !DrawsEyes(MoodOf(Classify(value)).expression) <==> value < 0 || value > 100
    ensures Mouth(MoodOf(Classify(value)).expression) == CrossedStrokes <==> value < 0 || value > 100
  {
  }
}
